=== FILE: README.md ===
# MoonBot moon-report core, modelled in Dafny

MoonBot is a chat bot for a corporation in a space game. When someone posts the
trigger command (by default `!!moons`, moonbot.go:43), the bot fetches the corporation's
moon-mining extractions from a report endpoint. It sorts them by chunk-arrival
time and splits them into two sections. *Active* extractions have a chunk that
arrived less than 48 hours ago; each is listed with its theoretical ore volume.
*Upcoming* extractions are all the others; each is listed with its arrival time.
The reply is a header embed, the non-empty sections, and a footer embed.

The project models that logic in three modules, one per concern:

- `extractions.dfy` (module `Extractions`) holds the extraction record and its
  rules from `types.go`. These are the elapsed time of an extraction, its
  theoretical volume and its active window. The volume is elapsed hours × 40000
  × the sum of the rate fractions that parse, truncated toward zero.
  `ComputeVolume` is the single-pass loop the source runs, and it is proved
  equal to the recursive definition `Volume`.
- `response.dfy` (module `Response`) holds the response as a sequence of
  extractions, with `Len`, `Less` and `Swap` as in Go's `sort.Interface`. It
  also holds a `Sort` method. `Sort` uses only those three operations and is
  proved to return a permutation sorted by arrival.
- `moonbot.dfy` (module `MoonBot`) holds the decision logic of the message
  handler as a method. The inputs are the bot's own user id, the trigger
  string, the inbound message, the outcome of the fetch and the current time.
  The method returns the posts the handler would send, in order.

Timestamps are whole seconds. Rate fractions are exact `real` numbers, or
`Unparsable` when the text failed to parse. The current time `now` is an
explicit parameter and is read once per report.

Two details of the code matter at the edges:

- An extraction is not active at the instant of arrival, because `isActive`
  compares with a strict `After` (types.go:175). `IsActive` does the same.
- The volume is converted to an integer with `int(...)`, which truncates
  toward zero (types.go:170). `TruncToInt` does the same.

## Model

| member | source | states |
|---|---|---|
| Extractions.ExtractionTime | types.go:154-156 | start plus elapsed time gives arrival exactly. The duration is negative exactly when arrival precedes start, so it is not clamped. |
| Extractions.TruncToInt | types.go:170 | the float-to-int conversion truncates toward zero. For x ≥ 0 the result is the largest integer ≤ x. For x < 0 it is the smallest integer ≥ x. |
| Extractions.TruncDouble | types.go:170 | truncating twice a value differs from twice its truncation by at most one, and is not smaller when the value is non-negative |
| Extractions.TruncMonotone | types.go:170 | truncation toward zero never reverses the order of two values |
| Extractions.RateSumConcat | types.go:161-168 | the accumulated rate of two consecutive runs of content is the sum of their accumulated rates |
| Extractions.UnparsableRateIgnored | types.go:163-166 | inserting an entry whose rate fails to parse, anywhere, leaves the rate sum unchanged |
| Extractions.RateSumWithoutParsedRates | types.go:161-168 | the rate sum is 0 when no entry's rate parses, including when there are no entries |
| Extractions.RateSumSnoc | types.go:162-168 | one loop step adds the entry's rate if it parsed and nothing otherwise |
| Extractions.VolumeWithoutParsedRates | types.go:158-171 | the volume is 0 when the moon report is empty or none of its rates parse |
| Extractions.VolumeIgnoresUnparsableRate | types.go:162-168 | an ore with an unparsable rate leaves the volume unchanged, whatever its position in the content |
| Extractions.VolumeOfOneDayAtHalfRate | types.go:158-171 | 24 hours elapsed with a single ore at rate 0.5 gives 480000 m3 |
| Extractions.VolumeMonotoneInDuration | types.go:158-171 | with the same content and a non-negative rate sum, a longer extraction never yields a smaller volume |
| Extractions.VolumeOfReversedWindow | types.go:154-171 | when arrival precedes start and the rates are non-negative, the volume is ≤ 0. The non-positive number is passed through, not clamped. |
| Extractions.TheoreticalDoubles | types.go:159 | doubling the elapsed time doubles the theoretical volume exactly |
| Extractions.VolumeDoubles | types.go:159-170 | with the same content, doubling the elapsed time doubles the volume up to one unit of truncation either way, whatever the signs. With a non-negative duration and rate sum, the doubled volume is never below twice the original. |
| Extractions.ComputeVolume | types.go:158-171 | the single pass that accumulates parsable rates and truncates the product yields exactly `Volume` |
| Extractions.IsActiveWindow | types.go:173-177 | active iff the time since arrival is strictly between 0 and 172800 seconds |
| Extractions.IsActiveBoundaries | types.go:175-176 | not active at arrival, not active at arrival + 172800 s and not active at any earlier time. Active one second after arrival and one second before the window closes. |
| Response.LessIrreflexive | types.go:185-187 | `Less(i, i)` never holds |
| Response.LessTransitive | types.go:185-187 | `Less` is transitive |
| Response.SortedArrivalsNonDecreasing | types.go:185-187 | no later position is `Less` than an earlier one iff arrival times are non-decreasing |
| Response.Swap | types.go:189-191 | positions i and j are exchanged. Every other position and the length are unchanged. |
| Response.SwapInvolution | types.go:189-191 | swapping the same two positions twice restores the response |
| Response.SwapPermutes | types.go:181-191 | a swap keeps `Len`, the number of extractions, and keeps the multiset of extractions |
| Response.Sort | moonbot.go:118 | the result is a permutation of the response, and no later entry is `Less` than an earlier one |
| MoonBot.Classify | moonbot.go:137-155 | every extraction of the active section is active and none of the upcoming section is. Together the sections are the response, as a multiset. |
| MoonBot.ClassifyExactlyOne | moonbot.go:137-155 | each extraction of the response is in the active section iff it is active, and in the upcoming section iff it is not |
| MoonBot.ClassifyNonEmpty | moonbot.go:128-155 | a section is non-empty iff some extraction of the response belongs to it |
| MoonBot.ClassifyKeepsOrder | moonbot.go:118-155 | splitting a sorted response keeps both sections in non-decreasing arrival order |
| MoonBot.Assemble | moonbot.go:120-169 | header first and footer last, all embeds. The active embed is present iff its section is non-empty, and likewise the upcoming embed. The entry count is the total size of the two sections. |
| MoonBot.Report | moonbot.go:120-169 | the header comes first and the footer last. The active and upcoming embeds appear exactly when their sections are non-empty, in that order. The embeds together hold one entry per extraction. |
| MoonBot.ReportSections | moonbot.go:137-163 | over a sorted response, each section embed lists exactly the extractions of its kind in arrival order, one entry each. An entry is named after the structure when its structure id is positive and after the moon otherwise. An active entry shows the extraction's volume, and an upcoming entry shows its arrival time. |
| MoonBot.UpcomingChronological | moonbot.go:118-153 | over a sorted response, the arrival times listed in the upcoming embed never decrease |
| MoonBot.HandleMessage | moonbot.go:84-169 | the bot's own messages and non-trigger messages get no reply. A failed request creation, fetch or decode gets exactly one error text with the matching prefix. A fetched response gets the report of some sorted permutation of it. |

## Left out

- `main`: environment loading, HTTP client setup, opening the chat session and waiting for signals are process lifecycle and I/O.
- The HTTP request, the JSON decoding and the chat send calls are replaced by the `FetchOutcome` parameter and the returned sequence of posts. The request URL, the authorization header and the debug dump of the URL (`spew.Dump`, moonbot.go:97) are not modelled.
- Timestamp parsing (`ChunkArrivalTimeParsed`, `StartTimeParsed`): timestamps are taken as already-parsed seconds. A string that fails to parse silently becomes Go's zero time; that case is not modelled.
- `Extractions.ExtractionTime`: Go's `Duration` is a 64-bit nanosecond count, and `Sub` saturates beyond about 292 years. The model's difference is unbounded.
- `Extractions.IsActiveWindow`: `now` is in whole seconds, while the wall clock has sub-second precision. The source reads the clock once or twice per extraction (types.go:175-176, called at moonbot.go:138). The second read is skipped when the first `After` fails, so there are up to 2·n reads per report. Two extractions near a window edge can therefore be judged against different instants. The model reads the clock once per report.
- `Extractions.ComputeVolume`: floating-point arithmetic is not modelled. That covers `ParseFloat`'s rounding to float32, float64 rounding of the product, and rates such as "NaN" or "Inf" that parse as floats. Out-of-range float-to-int conversion is not modelled either. The model uses exact reals.
- `Response.Sort`: the library sort's algorithm is not modelled, and the library sort is not stable. The model sorts by insertion. `MoonBot.HandleMessage` only promises the report of *some* sorted permutation, so ties between equal arrival times may come out in any order.
- Display formatting: the date format of upcoming entries and the thousands-separated "m3" text of active entries are kept as numbers (`ArrivesAt`, `CubicMetres`).
- Fields that the shown logic never reads: the natural decay time, the observer ledger and the remaining descriptive fields of moons and structures.

=== FILE: extractions.dfy ===
/**
 Extraction records and the rules attached to them: the elapsed time of an
 extraction, its theoretical ore volume and its 48-hour active window.

 Timestamps are whole seconds on one clock; the string parsing that produces
 them is outside the model. A rate fraction is either a parsed real number or
 marked as unparsable.
 */
module Extractions {

  /** Hourly yield of an extraction in cubic metres. */
  const YieldPerHour: real := 40000.0

  /** Seconds in one hour. */
  const SecondsPerHour: real := 3600.0

  /** Length of the window after chunk arrival in which an extraction counts as active: 48 hours. */
  const ActiveWindow: int := 172800

  /** The outcome of parsing one ore's rate fraction. */
  datatype Rate = Parsed(fraction: real) | Unparsable

  /** One ore of a moon's composition. */
  datatype OreEntry = OreEntry(typeId: int, typeName: string, rate: Rate)

  /** What is known of the structure that runs the extraction; `structureId` is 0 when unknown. */
  datatype StructureInfo = StructureInfo(structureId: int, name: string)

  /** One moon-mining extraction, reduced to the fields the report uses. */
  datatype Extraction = Extraction(
    startTime: int,
    chunkArrivalTime: int,
    moonName: string,
    content: seq<OreEntry>,
    structure: StructureInfo)

  /** Duration of the extraction in seconds: chunk arrival minus start, not clamped. */
  function ExtractionTime(e: Extraction): (d: int)
    ensures e.startTime + d == e.chunkArrivalTime
    ensures d < 0 <==> e.chunkArrivalTime < e.startTime
  {
    e.chunkArrivalTime - e.startTime
  }

  /** Conversion of a real to an integer by truncation toward zero. */
  function TruncToInt(x: real): (t: int)
    ensures 0.0 <= x ==> 0 <= t && t as real <= x < t as real + 1.0
    ensures x < 0.0 ==> t <= 0 && t as real - 1.0 < x <= t as real
  {
    if 0.0 <= x then x.Floor else -((-x).Floor)
  }

  /** Sum of the rate fractions that parsed; unparsable ones are skipped. */
  function RateSum(content: seq<OreEntry>): (sum: real)
  {
    if |content| == 0 then 0.0
    else
      (match content[0].rate
       case Parsed(f) => f
       case Unparsable => 0.0) + RateSum(content[1..])
  }

  /** Volume the extraction would yield at a rate sum of 1: elapsed hours times the hourly yield. */
  function Theoretical(e: Extraction): (t: real)
  {
    ExtractionTime(e) as real / SecondsPerHour * YieldPerHour
  }

  /** Theoretical volume scaled by the summed rates, truncated toward zero. */
  function Volume(e: Extraction): (v: int)
  {
    TruncToInt(Theoretical(e) * RateSum(e.content))
  }

  /** The extraction is active when `now` lies strictly after arrival and strictly before arrival plus 48 hours. */
  predicate IsActive(e: Extraction, now: int)
  {
    e.chunkArrivalTime < now && now < e.chunkArrivalTime + ActiveWindow
  }

  /** Truncation toward zero is monotone. */
  lemma TruncMonotone(x: real, y: real)
    requires x <= y
    ensures TruncToInt(x) <= TruncToInt(y)
  {
    if 0.0 <= x {
      assert x.Floor <= y.Floor;
    } else if y < 0.0 {
      assert (-y).Floor <= (-x).Floor;
    }
  }

  /** The rate sum of a concatenation is the sum of the rate sums. */
  lemma {:induction false} RateSumConcat(a: seq<OreEntry>, b: seq<OreEntry>)
    ensures RateSum(a + b) == RateSum(a) + RateSum(b)
  {
    if |a| == 0 {
      assert a + b == b;
    } else {
      assert (a + b)[1..] == a[1..] + b;
      RateSumConcat(a[1..], b);
    }
  }

  /** Inserting an entry whose rate fails to parse leaves the sum unchanged. */
  lemma UnparsableRateIgnored(a: seq<OreEntry>, x: OreEntry, b: seq<OreEntry>)
    requires x.rate.Unparsable?
    ensures RateSum(a + [x] + b) == RateSum(a + b)
  {
    RateSumConcat(a + [x], b);
    RateSumConcat(a, [x]);
    RateSumConcat(a, b);
    assert RateSum([x]) == 0.0 by {
      assert [x][1..] == [];
    }
  }

  /** When no rate parses (in particular when there are no entries) the sum is zero. */
  lemma {:induction false} RateSumWithoutParsedRates(content: seq<OreEntry>)
    requires forall i :: 0 <= i < |content| ==> content[i].rate.Unparsable?
    ensures RateSum(content) == 0.0
  {
    if |content| > 0 {
      RateSumWithoutParsedRates(content[1..]);
    }
  }

  /** The sum over a prefix extended by one entry adds that entry's rate if it parsed. */
  lemma RateSumSnoc(content: seq<OreEntry>, i: nat)
    requires i < |content|
    ensures RateSum(content[..i + 1]) ==
            RateSum(content[..i]) + (if content[i].rate.Parsed? then content[i].rate.fraction else 0.0)
  {
    assert content[..i + 1] == content[..i] + [content[i]];
    RateSumConcat(content[..i], [content[i]]);
    assert [content[i]][1..] == [];
  }

  /** The volume is zero when the moon report has no content or no rate of it parses. */
  lemma VolumeWithoutParsedRates(e: Extraction)
    requires forall i :: 0 <= i < |e.content| ==> e.content[i].rate.Unparsable?
    ensures Volume(e) == 0
  {
    RateSumWithoutParsedRates(e.content);
  }

  /** An ore whose rate fails to parse does not change the volume, wherever it sits in the content. */
  lemma VolumeIgnoresUnparsableRate(e: Extraction, i: nat, x: OreEntry)
    requires i <= |e.content| && x.rate.Unparsable?
    ensures Volume(e.(content := e.content[..i] + [x] + e.content[i..])) == Volume(e)
  {
    var g := e.(content := e.content[..i] + [x] + e.content[i..]);
    UnparsableRateIgnored(e.content[..i], x, e.content[i..]);
    assert e.content[..i] + e.content[i..] == e.content;
    assert RateSum(g.content) == RateSum(e.content);
    assert Theoretical(g) == Theoretical(e);
  }

  /** Worked example: 24 hours of extraction with a single ore at rate 0.5 yields 480000 m3. */
  lemma VolumeOfOneDayAtHalfRate(e: Extraction)
    requires e.chunkArrivalTime - e.startTime == 86400
    requires |e.content| == 1 && e.content[0].rate == Parsed(0.5)
    ensures Volume(e) == 480000
  {
    assert e.content[1..] == [];
    assert RateSum(e.content) == 0.5;
    assert Theoretical(e) == 960000.0;
  }

  /** Scaling by a non-negative factor keeps the order of two reals. */
  lemma ScaleMonotone(a: real, b: real, c: real)
    requires a <= b && 0.0 <= c
    ensures a * c <= b * c
  {
    assert b * c - a * c == (b - a) * c;
  }

  /** Scaling by a non-negative factor and then truncating keeps the order of two reals. */
  lemma TruncScaleMonotone(a: real, b: real, c: real)
    requires a <= b && 0.0 <= c
    ensures TruncToInt(a * c) <= TruncToInt(b * c)
  {
    ScaleMonotone(a, b, c);
    var x, y := a * c, b * c;
    assert x <= y;
    TruncMonotone(x, y);
  }

  /** Truncating twice a value loses at most one unit against twice its truncation. */
  lemma TruncDouble(x: real)
    ensures -1 <= TruncToInt(2.0 * x) - 2 * TruncToInt(x) <= 1
    ensures 0.0 <= x ==> 2 * TruncToInt(x) <= TruncToInt(2.0 * x)
  {
    var t, u := TruncToInt(x), TruncToInt(2.0 * x);
    if 0.0 <= x {
      assert t as real <= x < t as real + 1.0;
      assert u as real <= 2.0 * x < u as real + 1.0;
    } else {
      assert t as real - 1.0 < x <= t as real;
      assert u as real - 1.0 < 2.0 * x <= u as real;
    }
  }

  /** Scaling twice a value and truncating is within one unit of twice the truncated scaled value. */
  lemma TruncScaleDouble(a: real, b: real, c: real)
    requires b == 2.0 * a
    ensures -1 <= TruncToInt(b * c) - 2 * TruncToInt(a * c) <= 1
    ensures 0.0 <= a && 0.0 <= c ==> 2 * TruncToInt(a * c) <= TruncToInt(b * c)
  {
    var x := a * c;
    assert b * c == 2.0 * x;
    TruncDouble(x);
    if 0.0 <= a && 0.0 <= c {
      ScaleMonotone(0.0, a, c);
    }
  }

  /** A longer extraction has a larger theoretical volume. */
  lemma TheoreticalMonotone(e: Extraction, f: Extraction)
    requires ExtractionTime(e) <= ExtractionTime(f)
    ensures Theoretical(e) <= Theoretical(f)
  {
  }

  /** With a non-negative rate sum, a longer extraction of the same moon never yields less. */
  lemma VolumeMonotoneInDuration(e: Extraction, f: Extraction)
    requires e.content == f.content && 0.0 <= RateSum(e.content)
    requires ExtractionTime(e) <= ExtractionTime(f)
    ensures Volume(e) <= Volume(f)
  {
    var te, tf, r := Theoretical(e), Theoretical(f), RateSum(e.content);
    TheoreticalMonotone(e, f);
    TruncScaleMonotone(te, tf, r);
    assert Volume(e) == TruncToInt(te * r);
    assert Volume(f) == TruncToInt(tf * r);
  }

  /** Doubling the elapsed time doubles the theoretical volume exactly. */
  lemma TheoreticalDoubles(e: Extraction, f: Extraction)
    requires ExtractionTime(f) == 2 * ExtractionTime(e)
    ensures Theoretical(f) == 2.0 * Theoretical(e)
  {
  }

  /**
   Doubling the elapsed time of an extraction of the same moon doubles its
   volume, up to the one unit that truncation can gain or lose; when the
   duration and the rate sum are non-negative, the doubled volume is never
   below twice the original.
   */
  lemma VolumeDoubles(e: Extraction, f: Extraction)
    requires e.content == f.content && ExtractionTime(f) == 2 * ExtractionTime(e)
    ensures -1 <= Volume(f) - 2 * Volume(e) <= 1
    ensures 0 <= ExtractionTime(e) && 0.0 <= RateSum(e.content) ==> 2 * Volume(e) <= Volume(f)
  {
    var te, tf, r := Theoretical(e), Theoretical(f), RateSum(e.content);
    var u, v := Volume(e), Volume(f);
    assert tf == 2.0 * te by {
      TheoreticalDoubles(e, f);
    }
    assert v == TruncToInt(tf * r) by {
      assert RateSum(f.content) == r;
    }
    assert -1 <= v - 2 * u <= 1 && (0.0 <= te && 0.0 <= r ==> 2 * u <= v) by {
      TruncScaleDouble(te, tf, r);
    }
    assert 0 <= ExtractionTime(e) ==> 0.0 <= te;
  }

  /** An arrival before the start yields a non-positive volume for non-negative rates: the anomaly is not clamped away. */
  lemma VolumeOfReversedWindow(e: Extraction)
    requires e.chunkArrivalTime < e.startTime && 0.0 <= RateSum(e.content)
    ensures Volume(e) <= 0
  {
    var t, r := Theoretical(e), RateSum(e.content);
    assert t < 0.0;
    ScaleMonotone(t, 0.0, r);
    assert Volume(e) == TruncToInt(t * r);
  }

  /**
   The volume computed the way the report computes it: the rates are
   accumulated in one pass, skipping those that failed to parse.
   */
  method ComputeVolume(e: Extraction) returns (v: int)
    ensures v == Volume(e)
  {
    var theoretical := Theoretical(e);
    var per := 0.0;
    var i := 0;
    while i < |e.content|
      invariant 0 <= i <= |e.content|
      invariant per == RateSum(e.content[..i])
    {
      RateSumSnoc(e.content, i);
      if e.content[i].rate.Parsed? {
        per := per + e.content[i].rate.fraction;
      }
      i := i + 1;
    }
    assert e.content[..i] == e.content;
    v := TruncToInt(theoretical * per);
  }

  /** Characterisation of the window: the time since arrival lies strictly between 0 and 48 hours. */
  lemma IsActiveWindow(e: Extraction, now: int)
    ensures IsActive(e, now) <==> 0 < now - e.chunkArrivalTime < ActiveWindow
  {
  }

  /** The window is open at both ends: not active at arrival, at arrival plus 48 hours, nor before arrival. */
  lemma IsActiveBoundaries(e: Extraction, now: int)
    ensures !IsActive(e, e.chunkArrivalTime)
    ensures !IsActive(e, e.chunkArrivalTime + ActiveWindow)
    ensures now <= e.chunkArrivalTime ==> !IsActive(e, now)
    ensures IsActive(e, e.chunkArrivalTime + 1) && IsActive(e, e.chunkArrivalTime + ActiveWindow - 1)
  {
  }
}

=== FILE: moonbot.dfy ===
/**
 The decision logic of the bot's message handler: which inbound messages it
 answers, how a failed fetch is reported, and how a fetched response becomes
 the sequence of posts of a moon report.

 The chat transport, the HTTP request and the JSON decoding are outside the
 model: the handler receives the message, the outcome of the fetch and the
 current time, and returns the posts it would send, in order.
 */
module MoonBot {
  import opened Extractions
  import opened Response

  const HeaderTitle: string := "Moon Report Running"
  const FooterTitle: string := "Moon Report Complete!"
  const FooterText: string := "MoonBot by Crypta Electrica"
  const ActiveTitle: string := "Active Extractions"
  const UpcomingTitle: string := "Upcoming Extractions"

  const ReportColor: int := 0x17A2B8
  const ActiveColor: int := 0x28A745
  const UpcomingColor: int := 0xFFC107

  /** An inbound chat message. */
  datatype Message = Message(authorId: string, content: string)

  /** How the request for the report ended; each failure carries the error's text. */
  datatype FetchOutcome =
    | RequestFailed(err: string)
    | TransportFailed(err: string)
    | DecodeFailed(err: string)
    | Fetched(response: MoonBotResponse)

  /** The value shown for an entry: the volume of an active extraction, the arrival of an upcoming one. */
  datatype FieldValue = CubicMetres(volume: int) | ArrivesAt(time: int)

  /** One named entry of an embed. */
  datatype Field = Field(name: string, value: FieldValue)

  datatype Footer = NoFooter | Footer(text: string)

  /** A post sent to the channel: plain text, or an embed with a title, a colour, entries and an optional footer. */
  datatype Post =
    | Text(body: string)
    | Embed(title: string, color: int, fields: seq<Field>, footer: Footer)

  const ReportHeader: Post := Embed(HeaderTitle, ReportColor, [], NoFooter)
  const ReportFooter: Post := Embed(FooterTitle, ReportColor, [], Footer(FooterText))

  /** The handler leaves a message alone when the bot wrote it or it is not exactly the trigger. */
  predicate Ignored(selfId: string, trigger: string, m: Message)
  {
    m.authorId == selfId || m.content != trigger
  }

  /** The single post that reports a failed fetch. */
  function ErrorPost(fetch: FetchOutcome): (post: Post)
    requires !fetch.Fetched?
  {
    match fetch
    case RequestFailed(err) => Text("error creating request: " + err)
    case TransportFailed(err) => Text("error getting request: " + err)
    case DecodeFailed(err) => Text("error decoding response: " + err)
  }

  /** The name an entry is listed under: the structure's name when the structure is known, else the moon's. */
  function Label(e: Extraction): (l: string)
  {
    if e.structure.structureId > 0 then e.structure.name else e.moonName
  }

  /** The extractions of a response, split into the active section and the upcoming section. */
  datatype Sections = Sections(active: seq<Extraction>, upcoming: seq<Extraction>)

  /** Walks the response once, putting each extraction into the active or the upcoming section. */
  function Classify(es: seq<Extraction>, now: int): (p: Sections)
    ensures forall x :: x in p.active ==> IsActive(x, now)
    ensures forall x :: x in p.upcoming ==> !IsActive(x, now)
    ensures multiset(p.active) + multiset(p.upcoming) == multiset(es)
  {
    if |es| == 0 then Sections([], [])
    else
      var rest := Classify(es[1..], now);
      assert es == [es[0]] + es[1..];
      if IsActive(es[0], now) then Sections([es[0]] + rest.active, rest.upcoming)
      else Sections(rest.active, [es[0]] + rest.upcoming)
  }

  /** One entry per active extraction, in order: its label and its volume. */
  function ActiveEntries(es: seq<Extraction>): (fs: seq<Field>)
  {
    seq(|es|, k requires 0 <= k < |es| => Field(Label(es[k]), CubicMetres(Volume(es[k]))))
  }

  /** One entry per upcoming extraction, in order: its label and its arrival time. */
  function UpcomingEntries(es: seq<Extraction>): (fs: seq<Field>)
  {
    seq(|es|, k requires 0 <= k < |es| => Field(Label(es[k]), ArrivesAt(es[k].chunkArrivalTime)))
  }

  /** Total number of entries over all embeds of a sequence of posts. */
  function EntryCount(posts: seq<Post>): (n: nat)
  {
    if |posts| == 0 then 0
    else (if posts[0].Embed? then |posts[0].fields| else 0) + EntryCount(posts[1..])
  }

  /** Lays out the posts of a report around its two sections, leaving out an empty section. */
  function Assemble(p: Sections): (out: seq<Post>)
    ensures 2 <= |out| <= 4
    ensures out[0] == ReportHeader && out[|out| - 1] == ReportFooter
    ensures forall k :: 0 <= k < |out| ==> out[k].Embed?
    ensures out[1].title == ActiveTitle <==> |p.active| > 0
    ensures out[|out| - 2].title == UpcomingTitle <==> |p.upcoming| > 0
    ensures |out| == 2 + (if |p.active| > 0 then 1 else 0) + (if |p.upcoming| > 0 then 1 else 0)
    ensures EntryCount(out) == |p.active| + |p.upcoming|
  {
    var active := if |p.active| > 0 then [Embed(ActiveTitle, ActiveColor, ActiveEntries(p.active), NoFooter)] else [];
    var upcoming := if |p.upcoming| > 0 then [Embed(UpcomingTitle, UpcomingColor, UpcomingEntries(p.upcoming), NoFooter)] else [];
    EntryCountConcat([ReportHeader] + active, upcoming + [ReportFooter]);
    EntryCountConcat([ReportHeader], active);
    EntryCountConcat(upcoming, [ReportFooter]);
    assert [ReportHeader] + active + upcoming + [ReportFooter] == ([ReportHeader] + active) + (upcoming + [ReportFooter]);
    EntryCountAtMostOne([ReportHeader]);
    EntryCountAtMostOne([ReportFooter]);
    EntryCountAtMostOne(active);
    EntryCountAtMostOne(upcoming);
    [ReportHeader] + active + upcoming + [ReportFooter]
  }

  /** Classifying never loses or invents an extraction: the section lengths add up to the response length. */
  lemma ClassifySize(es: seq<Extraction>, now: int)
    ensures |Classify(es, now).active| + |Classify(es, now).upcoming| == |es|
  {
    var p := Classify(es, now);
    assert |multiset(p.active) + multiset(p.upcoming)| == |multiset(es)|;
  }

  /**
   The posts of a report over an already sorted response: the header, the
   active section if some extraction is active, the upcoming section if some
   extraction is not, and the footer.
   */
  function Report(sorted: MoonBotResponse, now: int): (out: seq<Post>)
    ensures 2 <= |out| <= 4
    ensures out[0] == ReportHeader && out[|out| - 1] == ReportFooter
    ensures forall k :: 0 <= k < |out| ==> out[k].Embed?
    ensures out[1].title == ActiveTitle <==> exists x :: x in sorted && IsActive(x, now)
    ensures out[|out| - 2].title == UpcomingTitle <==> exists x :: x in sorted && !IsActive(x, now)
    ensures |out| == 2 + (if exists x :: x in sorted && IsActive(x, now) then 1 else 0)
                       + (if exists x :: x in sorted && !IsActive(x, now) then 1 else 0)
    ensures EntryCount(out) == |sorted|
  {
    ClassifyNonEmpty(sorted, now);
    ClassifySize(sorted, now);
    Assemble(Classify(sorted, now))
  }

  /** The entry count of a concatenation is the sum of the entry counts. */
  lemma {:induction false} EntryCountConcat(a: seq<Post>, b: seq<Post>)
    ensures EntryCount(a + b) == EntryCount(a) + EntryCount(b)
  {
    if |a| == 0 {
      assert a + b == b;
    } else {
      assert (a + b)[1..] == a[1..] + b;
      EntryCountConcat(a[1..], b);
    }
  }

  /** The entry count of at most one post is that post's field count. */
  lemma EntryCountAtMostOne(posts: seq<Post>)
    requires |posts| <= 1
    ensures EntryCount(posts) == if |posts| == 1 && posts[0].Embed? then |posts[0].fields| else 0
  {
    if |posts| == 1 {
      assert posts[1..] == [];
    }
  }

  /** A section is non-empty exactly when some extraction of the response belongs to it. */
  lemma ClassifyNonEmpty(es: seq<Extraction>, now: int)
    ensures |Classify(es, now).active| > 0 <==> exists x :: x in es && IsActive(x, now)
    ensures |Classify(es, now).upcoming| > 0 <==> exists x :: x in es && !IsActive(x, now)
  {
    var p := Classify(es, now);
    if |p.active| > 0 {
      var y := p.active[0];
      assert y in multiset(p.active);
      assert y in multiset(es);
    }
    if |p.upcoming| > 0 {
      var y := p.upcoming[0];
      assert y in multiset(p.upcoming);
      assert y in multiset(es);
    }
    forall x | x in es
      ensures IsActive(x, now) ==> |p.active| > 0
      ensures !IsActive(x, now) ==> |p.upcoming| > 0
    {
      ClassifyExactlyOne(es, now, x);
    }
  }

  /** Every extraction of the response sits in exactly one section, chosen by the active window. */
  lemma ClassifyExactlyOne(es: seq<Extraction>, now: int, x: Extraction)
    requires x in es
    ensures x in Classify(es, now).active <==> IsActive(x, now)
    ensures x in Classify(es, now).upcoming <==> !IsActive(x, now)
  {
    var p := Classify(es, now);
    assert x in multiset(p.active) + multiset(p.upcoming);
  }

  /** Putting an extraction that arrives no later than all others in front keeps a sequence sorted. */
  lemma SortedCons(x: Extraction, s: seq<Extraction>)
    requires Sorted(s)
    requires forall y :: y in s ==> x.chunkArrivalTime <= y.chunkArrivalTime
    ensures Sorted([x] + s)
  {
    SortedArrivalsNonDecreasing(s);
    var t := [x] + s;
    forall i, j | 0 <= i < j < |t|
      ensures t[i].chunkArrivalTime <= t[j].chunkArrivalTime
    {
      if i == 0 {
        assert t[j] == s[j - 1];
      } else {
        assert t[i] == s[i - 1] && t[j] == s[j - 1];
      }
    }
    SortedArrivalsNonDecreasing(t);
  }

  /** Classifying a sorted response keeps both sections in arrival order. */
  lemma {:induction false} ClassifyKeepsOrder(es: seq<Extraction>, now: int)
    requires Sorted(es)
    ensures Sorted(Classify(es, now).active) && Sorted(Classify(es, now).upcoming)
  {
    if |es| > 0 {
      var tail := es[1..];
      assert Sorted(tail) by {
        SortedArrivalsNonDecreasing(es);
        SortedArrivalsNonDecreasing(tail);
      }
      ClassifyKeepsOrder(tail, now);
      var rest := Classify(tail, now);
      assert forall y :: y in tail ==> es[0].chunkArrivalTime <= y.chunkArrivalTime by {
        SortedArrivalsNonDecreasing(es);
      }
      forall y | y in rest.active + rest.upcoming
        ensures es[0].chunkArrivalTime <= y.chunkArrivalTime
      {
        assert y in multiset(rest.active) + multiset(rest.upcoming);
        assert y in multiset(tail);
      }
      if IsActive(es[0], now) {
        SortedCons(es[0], rest.active);
      } else {
        SortedCons(es[0], rest.upcoming);
      }
    }
  }

  /**
   In a report over a sorted response, each section lists exactly the
   extractions of its kind, in non-decreasing arrival order, every entry
   labelled by structure or moon name.
   */
  lemma ReportSections(sorted: MoonBotResponse, now: int)
    requires Sorted(sorted)
    ensures var out := Report(sorted, now);
            var p := Classify(sorted, now);
            && Sorted(p.active) && Sorted(p.upcoming)
            && (out[1].title == ActiveTitle ==> out[1] == Embed(ActiveTitle, ActiveColor, ActiveEntries(p.active), NoFooter))
            && (out[|out| - 2].title == UpcomingTitle ==>
                  out[|out| - 2] == Embed(UpcomingTitle, UpcomingColor, UpcomingEntries(p.upcoming), NoFooter))
            && (out[1].title == ActiveTitle ==>
                  && |out[1].fields| == |p.active|
                  && forall k :: 0 <= k < |p.active| ==>
                       out[1].fields[k] == Field(
                         if p.active[k].structure.structureId > 0 then p.active[k].structure.name else p.active[k].moonName,
                         CubicMetres(Volume(p.active[k]))))
            && (out[|out| - 2].title == UpcomingTitle ==>
                  && |out[|out| - 2].fields| == |p.upcoming|
                  && forall k :: 0 <= k < |p.upcoming| ==>
                       out[|out| - 2].fields[k] == Field(
                         if p.upcoming[k].structure.structureId > 0 then p.upcoming[k].structure.name else p.upcoming[k].moonName,
                         ArrivesAt(p.upcoming[k].chunkArrivalTime)))
  {
    ClassifyKeepsOrder(sorted, now);
    ClassifyNonEmpty(sorted, now);
  }

  /** Every entry shows an arrival time, and the times never decrease down the list. */
  predicate Chronological(fs: seq<Field>)
  {
    && (forall i :: 0 <= i < |fs| ==> fs[i].value.ArrivesAt?)
    && (forall i, j :: 0 <= i < j < |fs| ==> fs[i].value.time <= fs[j].value.time)
  }

  /** The upcoming section of a report over a sorted response lists arrival times in non-decreasing order. */
  lemma UpcomingChronological(sorted: MoonBotResponse, now: int)
    requires Sorted(sorted)
    ensures var out := Report(sorted, now);
            out[|out| - 2].title == UpcomingTitle ==> Chronological(out[|out| - 2].fields)
  {
    ReportSections(sorted, now);
    SortedArrivalsNonDecreasing(Classify(sorted, now).upcoming);
  }

  /**
   The handler: ignores its own messages and anything but the trigger, answers
   a failed fetch with one error post, and otherwise sorts the response by
   arrival and sends the report.
   */
  method HandleMessage(selfId: string, trigger: string, m: Message, fetch: FetchOutcome, now: int)
    returns (out: seq<Post>)
    ensures Ignored(selfId, trigger, m) ==> out == []
    ensures !Ignored(selfId, trigger, m) && fetch.RequestFailed? ==> out == [Text("error creating request: " + fetch.err)]
    ensures !Ignored(selfId, trigger, m) && fetch.TransportFailed? ==> out == [Text("error getting request: " + fetch.err)]
    ensures !Ignored(selfId, trigger, m) && fetch.DecodeFailed? ==> out == [Text("error decoding response: " + fetch.err)]
    ensures !Ignored(selfId, trigger, m) && fetch.Fetched? ==>
              exists s :: Sorted(s) && multiset(s) == multiset(fetch.response) && out == Report(s, now)
  {
    if Ignored(selfId, trigger, m) {
      return [];
    }
    if !fetch.Fetched? {
      return [ErrorPost(fetch)];
    }
    var sorted := Sort(fetch.response);
    out := Report(sorted, now);
  }
}

=== FILE: response.dfy ===
/**
 The fetched report as a sequence of extractions, ordered by chunk arrival
 through the three operations of Go's sort interface (length, less, swap),
 and the sort the report applies to it.
 */
module Response {
  import opened Extractions

  type MoonBotResponse = seq<Extraction>

  /** Number of extractions in the response. */
  function Len(r: MoonBotResponse): (n: nat)
  {
    |r|
  }

  /** Extraction `i` arrives strictly before extraction `j`. */
  predicate Less(r: MoonBotResponse, i: nat, j: nat)
    requires i < |r| && j < |r|
  {
    r[i].chunkArrivalTime < r[j].chunkArrivalTime
  }

  /** Exchanges the extractions at positions `i` and `j`. */
  function Swap(r: MoonBotResponse, i: nat, j: nat): (s: MoonBotResponse)
    requires i < |r| && j < |r|
    ensures |s| == |r|
    ensures s[i] == r[j] && s[j] == r[i]
    ensures forall k :: 0 <= k < |r| && k != i && k != j ==> s[k] == r[k]
  {
    r[i := r[j]][j := r[i]]
  }

  /** What the sort promises: no later extraction is `Less` than an earlier one. */
  predicate Sorted(r: MoonBotResponse)
  {
    forall i, j :: 0 <= i < j < |r| ==> !Less(r, j, i)
  }

  /** `Less` never relates a position to itself. */
  lemma LessIrreflexive(r: MoonBotResponse, i: nat)
    requires i < |r|
    ensures !Less(r, i, i)
  {
  }

  /** `Less` is transitive, so it is a strict weak order on positions. */
  lemma LessTransitive(r: MoonBotResponse, i: nat, j: nat, k: nat)
    requires i < |r| && j < |r| && k < |r|
    requires Less(r, i, j) && Less(r, j, k)
    ensures Less(r, i, k)
  {
  }

  /** A sorted response has non-decreasing arrival times. */
  lemma SortedArrivalsNonDecreasing(r: MoonBotResponse)
    ensures Sorted(r) <==>
            forall i, j :: 0 <= i < j < |r| ==> r[i].chunkArrivalTime <= r[j].chunkArrivalTime
  {
    if Sorted(r) {
      forall i, j | 0 <= i < j < |r|
        ensures r[i].chunkArrivalTime <= r[j].chunkArrivalTime
      {
        assert !Less(r, j, i);
      }
    }
  }

  /** Swapping twice at the same positions restores the response. */
  lemma SwapInvolution(r: MoonBotResponse, i: nat, j: nat)
    requires i < |r| && j < |r|
    ensures Swap(Swap(r, i, j), i, j) == r
  {
  }

  /** A swap keeps the length and the extractions themselves: it is a permutation. */
  lemma SwapPermutes(r: MoonBotResponse, i: nat, j: nat)
    requires i < |r| && j < |r|
    ensures Len(Swap(r, i, j)) == Len(r)
    ensures multiset(Swap(r, i, j)) == multiset(r)
  {
  }

  /**
   Orders the response by arrival using only `Len`, `Less` and `Swap`
   (insertion by adjacent swaps). Which order ties end up in is not part of
   the contract, as the library sort is not stable.
   */
  method Sort(r: MoonBotResponse) returns (s: MoonBotResponse)
    ensures Sorted(s)
    ensures multiset(s) == multiset(r)
  {
    s := r;
    var i := 1;
    while i < Len(s)
      invariant |s| == |r|
      invariant multiset(s) == multiset(r)
      invariant forall a, b :: 0 <= a < b < i && b < |s| ==> s[a].chunkArrivalTime <= s[b].chunkArrivalTime
    {
      var j := i;
      while 0 < j && Less(s, j, j - 1)
        invariant 0 <= j <= i < |s| == |r|
        invariant multiset(s) == multiset(r)
        invariant forall a, b :: 0 <= a < b <= i && a != j && b != j ==> s[a].chunkArrivalTime <= s[b].chunkArrivalTime
        invariant forall b :: j < b <= i ==> s[j].chunkArrivalTime < s[b].chunkArrivalTime
      {
        SwapPermutes(s, j, j - 1);
        s := Swap(s, j, j - 1);
        j := j - 1;
      }
      i := i + 1;
    }
    SortedArrivalsNonDecreasing(s);
  }
}
